=== FILE: README.md ===
# vitolink in Dafny

A model of the client side of vitolink, a program that talks to a
Viessmann heating controller through an Optolink adapter using the VS2
serial protocol. There are two parts to it.

The first is the Python client (`vitolink.py`). Its parts are:

- **Serial primitives.** `tx` writes bytes and `rx` reads them; an empty read is a timeout.
- **Telegram framing.** A telegram is `0x41`, a length byte, the payload, then a checksum: the payload sum plus the length, modulo 256. `sendTelegram` frames a payload, `readTelegram` reads one back, and `expectAck` reads the single acknowledge byte.
- **Register reads.** `readAddr` performs one transaction. It sends the request `00 01 addrHi addrLo cnt` and accepts only the response `01`, followed by the four echoed request bytes, followed by `cnt` data bytes.
- **Transformations.** These decode the data bytes into numbers.
- **Start-up handshake.** The client sends EOT and expects ENQ, or ACK plus one more byte. It then sends `16 00 00` and expects ACK.
- **Polling loop.** Each pass reads a fixed table of registers.

The second part is the two string helpers of the web page
(`static/assets/app.js`):

- `zeroPad` pads a hexadecimal digit string.
- `swapEndianess` reverses the order of its two-character byte groups.
- The page combines them to turn a number into the little-endian hex string the register API expects.

The model has one module per component:

| module | file | models |
|---|---|---|
| `Bytes` | bytes.dfy | bytes as integers 0..255, and Python's `sum` |
| `Transport` | transport.dfy | the serial link, plus the client's exceptions as `Result` errors |
| `Telegram` | telegram.dfy | the control bytes, `sendTelegram`, `expectAck`, `readTelegram` |
| `Registers` | registers.dfy | `readAddr` |
| `Transformations` | transformations.dfy | `shortToInt`, `temperatureShortToFloat`, `byteToInt`, `percentageByteToFloat` |
| `Handshake` | handshake.dfy | the start-up exchange, as the script runs it and as a state machine |
| `Readings` | readings.dfy | the register table and one pass of the polling loop |
| `HexStrings` | hexstrings.dfy | `zeroPad` and `swapEndianess` |

The serial link is modelled as a value:

- **The channel.** It is `Channel(input, written)`. `input` holds the bytes that will still arrive. `written` logs every byte sent.
- **Reading.** A read of `n` bytes takes `min(n, |input|)` bytes. So a read comes back short only when no more bytes arrive before the timeout.
- **Errors.** Every exception on the protocol path becomes a value of `Transport.Error`. In `Transport`, `Telegram`, `Registers` and `Readings` it is the `Err` of a `Result<T>`, and `:-` threads it through in the order the client checks. In the handshake it is the stage `Aborted(e)` of the `Outcome`, and `sys.exit(1)` is `Aborted(Refused(b))`.
- **Decoder errors.** The `struct.error` and `IndexError` the decoders raise on too few bytes are preconditions instead (see "## Left out").

Some behaviours of the client worth knowing when reading the model:

- **One attempt per call.** `readAddr` has no retry and no lock, and the handshake is never repeated. Any fault ends the call with an error.
- **Reads only.** The client only sends read requests; it has no write service.
- **Status byte.** `readAddr` tests the response length first (vitolink.py:66) and the status and echo after it (vitolink.py:68). A response that is not 5 + cnt bytes long gives `LengthMismatch`, whatever its status byte. A response of the right length with any status other than `0x01`, `0x03` included, gives `ResponseMismatch`, the same error as an echo mismatch.
- **Second byte after ACK.** When the handshake receives ACK first, the code compares the next byte with ENQ only to print a message (vitolink.py:99-100). Whatever that byte is, it carries on with the init bytes (`SecondByteIgnored`).

## Model

| member | source | states |
|---|---|---|
| Transport.Tx | vitolink.py:10-12 | `tx` leaves the input alone and appends exactly the given bytes to the written log, keeping what was written before |
| Transport.Read | vitolink.py:15 | `ser.read(n)` returns at most `n` bytes, fewer only when the input runs out; the bytes returned followed by the remaining input are the original input, and nothing is written |
| Transport.Rx | vitolink.py:14-19 | `rx` succeeds exactly when at least one byte is requested and one arrives, returning between 1 and `n` bytes; otherwise it gives `Timeout` |
| Transport.ResetInput | vitolink.py:94 | `reset_input_buffer` discards the already-buffered bytes from the front of the input and writes nothing |
| Telegram.Frame | vitolink.py:22-26 | the telegram of a payload of at most 255 bytes has payload length + 3 bytes: the start byte `0x41`, the length, the payload, and the checksum (payload sum plus length, modulo 256) |
| Telegram.SendTelegram | vitolink.py:21-27 | `sendTelegram` fails with a pack error, writing nothing, exactly when the payload exceeds 255 bytes; otherwise it writes `0x41`, the length, the payload and `(sum + length) % 256`, and leaves the input alone |
| Telegram.ExpectAck | vitolink.py:29-38 | consumes one byte and succeeds exactly on ACK; an empty read is `Timeout`, `0x15` is `Nak`, `0x05` is `Enq`, and any other byte is `NotAck` carrying that byte |
| Telegram.ReadBody | vitolink.py:50-59 | the body read after the length byte `n` succeeds exactly when `n + 1` bytes arrive and the last is the checksum of the first `n`, returning those `n` bytes; no byte is `Timeout`, fewer than `n + 1` is `ShortRead`, a wrong checksum is `ChecksumMismatch` |
| Telegram.ReadFrame | vitolink.py:43-59 | after the ACK: succeeds exactly when a start marker and a length byte arrive and the body read succeeds; an empty input or a missing length byte is `Timeout`, a wrong first byte is `BadStart` carrying it |
| Telegram.ReadTelegram | vitolink.py:40-59 | its own contract only splits on the first byte (empty input is `Timeout`, a non-ACK is the `expectAck` fault, ACK continues with the frame read), mirroring its body; what it accepts and rejects is stated by `Telegram.ReadTelegramSucceeds`, `Telegram.ReadTelegramFaults` and `Telegram.RoundTrip` |
| Telegram.ReadTelegramSucceeds | vitolink.py:40-59 | `readTelegram` succeeds exactly when the input starts with ACK and a complete telegram with a correct checksum; the input is then ACK, the frame of the returned payload, and the remaining channel input, and nothing is written |
| Telegram.ReadTelegramFaults | vitolink.py:40-59 | otherwise the error is that of the first failing check, in the client's order: ACK fault, timeout, bad start marker, timeout on the length or body, short read, checksum mismatch; there is no other exit |
| Telegram.RoundTrip | vitolink.py:21-59 | whatever `sendTelegram` writes, preceded by ACK, is read back by `readTelegram` as the same payload, consuming exactly payload length + 4 bytes whatever follows |
| Telegram.CorruptionDetected | vitolink.py:54-57 | changing any single payload byte or the checksum byte of a telegram to another value makes `readTelegram` fail with `ChecksumMismatch` |
| Registers.ReadRequest | vitolink.py:62 | `struct.pack('>BBHB', 0, 1, addr, cnt)` succeeds exactly for a 16-bit address and an 8-bit count, and is 5 bytes: 0, 1, the address big-endian, the count |
| Registers.CheckResponse | vitolink.py:66-71 | a response is accepted exactly when it has 5 + cnt bytes and starts with status 0x01 and the echoed request bytes; a wrong length gives `LengthMismatch`, a wrong header gives `ResponseMismatch`, and acceptance returns the bytes after the header |
| Registers.ReadAddr | vitolink.py:61-71 | out-of-range address or count gives a pack error; on success exactly the framed request was written, the input held ACK and the frame of `01 01 addrHi addrLo cnt` plus the returned `cnt` data bytes, and cnt is at most 250 |
| Registers.ReadAddrAccepts | vitolink.py:61-71 | given the device's response telegram, `readAddr` succeeds exactly when the response is 5 + cnt bytes with status 0x01 and the matching echo, then returns the data after it and the bytes that follow; any other status with the right length is `ResponseMismatch` |
| Registers.BoilerTemperatureRead | vitolink.py:61-71 | reading 2 bytes at 0x0802 against the response `01 01 08 02 02 09 01` returns `09 01` |
| Transformations.ShortToInt | vitolink.py:74-75 | `struct.unpack('<h')` yields a value in -32768..32767 congruent to `v[0] + 256*v[1]` modulo 65536, negative exactly when the high byte has its top bit set |
| Transformations.ShortRoundTrip | vitolink.py:74-75 | encoding any value in -32768..32767 as two little-endian bytes and decoding with `shortToInt` gives the value back |
| Transformations.ShortBytesRoundTrip | vitolink.py:74-75 | decoding any two bytes with `shortToInt` and encoding the result again gives the same two bytes |
| Transformations.TemperatureShortToFloat | vitolink.py:77-78 | the temperature is the signed short divided by 10, within -3276.8..3276.7 |
| Transformations.ByteToInt | vitolink.py:80-81 | `byteToInt` is an unsigned value 0..255 |
| Transformations.ByteToIntIgnoresTail | vitolink.py:80-81 | `byteToInt` reads only the first byte: bytes after it do not change the result |
| Transformations.PercentageByteToFloat | vitolink.py:83-84 | the percentage is the unsigned first byte halved, within 0..127.5 |
| Transformations.BoilerTemperatureValue | vitolink.py:74-78 | the bytes `09 01` decode to 265, that is 26.5 degrees |
| Handshake.SendInit | vitolink.py:105-106 | after the init bytes, the handshake ends `Initialized` exactly when the next byte is ACK |
| Handshake.Handshake | vitolink.py:93-106 | its own contract says only that the handshake always ends, `Initialized` or aborted; the outcome is characterised by `Handshake.HandshakeIsMachine`, `Handshake.HandshakeInitializes` and `Handshake.HandshakeExitsEarly` |
| Handshake.Answer | vitolink.py:95-106 | its own contract says only that the reaction to the first byte always ends the handshake; `Handshake.AnswerIsMachine` equates it with the state machine run from the first byte |
| Handshake.AnswerIsMachine | vitolink.py:95-106 | for every first byte and every remaining input, the script's reaction has the final stage of the machine run on from its first transition, removes exactly the bytes that run consumed, and writes exactly what the first transition and the run send |
| Handshake.HandshakeIsMachine | vitolink.py:93-106 | the script's handshake equals the state machine run over the bytes left after the input reset: same final stage, the consumed bytes removed from the input, and EOT followed by the machine's output written |
| Handshake.MachineInitializes | vitolink.py:95-106 | the machine ends initialized exactly on ENQ then ACK, or on ACK, any byte, then ACK, having sent the init bytes once |
| Handshake.HandshakeInitializes | vitolink.py:93-106 | the handshake reaches `Initialized` exactly on those byte sequences, and then has written exactly `04 16 00 00` |
| Handshake.HandshakeExitsEarly | vitolink.py:96-103 | the handshake ends with `sys.exit` exactly when the first byte is neither ENQ nor ACK, and then has written only EOT |
| Handshake.SecondByteIgnored | vitolink.py:97-100 | after ACK, any second byte, ENQ or not, leads on to the init bytes, and a final ACK completes the handshake |
| Readings.ReadingsTableConsistent | vitolink.py:116-122 | every table entry asks for the byte count its transformation decodes, has an address and count the read request can carry, and has a distinct name |
| Readings.Apply | vitolink.py:128-129 | a transformation applied to bytes it accepts yields a value in that transformation's range |
| Readings.Poll | vitolink.py:124-130 | on success, one pass yields one field per entry, in table order, named after it and holding its transformation applied to the data bytes `readAddr` returned for it (the entry's byte count of them); exactly the entries' framed read requests were written, and the input began with ACK and the response telegram `01 01 addrHi addrLo cnt` plus that data for each entry, in table order |
| Readings.PollReadsResponses | vitolink.py:124-130 | conversely, when the input holds for each entry ACK and the echoing response telegram with the entry's byte count of data, the pass succeeds, returns exactly that data and leaves exactly the bytes after those responses |
| HexStrings.Slice | static/assets/app.js:72 | JavaScript's `slice(start)` returns a suffix: the last `-start` characters for a negative start within the length, length minus start characters for a non-negative start within it, the empty string for a start at or past the length, and the whole string for a start at or before minus the length |
| HexStrings.ZeroPad | static/assets/app.js:71-73 | `zeroPad` returns a suffix of the padded string with the following length and contents: `digits` characters whenever 0 < digits <= length + 17; the tail of `val` when `val` is long enough; the right number of zeros followed by `val` when it is not; and the whole padded string for `digits` 0 or beyond the padding |
| HexStrings.SwapEndianness | static/assets/app.js:75-83 | the loop returns length minus length mod 2 characters; character `k` of the result is character `k % 2` of the `k / 2`-th two-character group counted from the end of the string |
| HexStrings.SwapAt | static/assets/app.js:75-83 | the same character-by-character description of the swap, for every position of its result |
| HexStrings.Swap | static/assets/app.js:75-83 | the result has length minus length mod 2 characters |
| HexStrings.SwapReversesGroups | static/assets/app.js:75-83 | on an even-length string, the swap is the concatenation of its two-character groups reversed |
| HexStrings.SwapTwice | static/assets/app.js:75-83 | the swap is an involution on even-length strings |
| HexStrings.SwapOddDropsFirst | static/assets/app.js:75-83 | on an odd-length string the swap ignores the first character |
| HexStrings.SwapAppend | static/assets/app.js:75-83 | swapping a concatenation of even-length parts swaps the parts' order |
| HexStrings.PaddedSwapLength | static/assets/app.js:135-139 | `swapEndianess(zeroPad(h, 2*size))` has exactly `2*size` characters when the digits fit the padding, and swapping it back, as `updateFromData` does, gives the zero-padded digits |

## Left out

- Serial-port setup, configuration, and the InfluxDB client and its writes: these are I/O and external collaborators.
- The endless polling loop, its timestamp, `write_points` and `sleep(5)`: only one pass of the loop body is modelled (`Readings.Poll`).
- The `fields` dictionary: it is a sequence in table order. The names are distinct (`ReadingsTableConsistent`), so the two agree.
- `print` calls and the commented-out code: neither affects behaviour.
- Floating-point division: temperatures and percentages are exact reals. For the values involved (a 16-bit integer over 10, a byte over 2) Python's float result is the nearest double to that real.
- The timing of `reset_input_buffer`: how many bytes it discards depends on when they arrived. It is the `stale` parameter.
- Reads that return short before the input ends: a read is short only when no further bytes arrive.
- Transformations.ShortToInt, Transformations.TemperatureShortToFloat: require exactly two bytes instead of modelling the `struct.error` raised otherwise. The polling loop only calls it with the two bytes a table entry asks for (`Readings.CountsMatch`).
- Transformations.ByteToInt, Transformations.PercentageByteToFloat: require at least one byte instead of modelling the `IndexError` on an empty string, for the same reason.
- Registers.ReadAddr: an `Err` carries no channel, so the bytes written before a fault are not modelled. This matters when the request was already sent (vitolink.py:64) and the response read then failed. The client never catches these exceptions (the only `try` is commented out), so a fault ends the program and nothing reads that channel again. The request written is stated on success only.
- Readings.Poll: for the same reason, the requests written before a failing entry are not modelled: a failed pass returns only its error.
- Readings.Poll: requires that every entry asks for the byte count its transformation decodes, instead of modelling the error a mismatched entry would raise. The program's table meets this (`ReadingsTableConsistent`).
- HexStrings.ZeroPad: `digits` is an integer, and the default `digits = 2` (app.js:71) is not modelled: every call is given its `digits`. JavaScript passes any number, and `slice` truncates a fractional start toward zero and treats NaN as 0. These cases arise on the page only through a non-integer size (see the next line).
- HexStrings.PaddedSwapLength: `size` is an integer, so a fractional free-text size is not covered, and for one the claim is false. Size "1.5" with `h` "1" gives `zeroPad("1", 3)` = "001", which swaps to the 2 characters "01", not 3. Also requires `size >= 1`. The size is free text on the page (app.js:179), so 0 can occur. But `toString(16)` never returns the empty string, so with size 0 the condition `|h| <= 2 * size` already fails. The only input `size >= 1` excludes is the empty `h` with size 0, where `slice(-0)` keeps all 17 padding zeros and the swap has 16 characters, not 0.
- JavaScript strings are sequences of UTF-16 code units, and the model uses Dafny strings, sequences of `char`. The two agree on the ASCII characters these helpers see: the hexadecimal digits, and the `-` and `NaN` that `toString(16)` can also produce.
- The rest of the web page: the Vue components, `fetch` calls, `parseInt`, `toString(16)` and the datapoint list are UI and foreign runtime calls.

=== FILE: bytes.dfy ===
/** Bytes as Python's `bytes` objects see them: integers in 0..255, and the
    `sum` the telegram checksum is built from. */
module Bytes {

  type Byte = b: int | 0 <= b < 256

  /** Python's `sum(bs)` over a byte string. */
  function Sum(bs: seq<Byte>): nat
  {
    if bs == [] then 0 else bs[0] + Sum(bs[1..])
  }

  /** The sum of a concatenation is the sum of its parts. */
  lemma {:induction false} SumAppend(a: seq<Byte>, b: seq<Byte>)
    ensures Sum(a + b) == Sum(a) + Sum(b)
  {
    if a == [] {
      assert a + b == b;
    } else {
      assert (a + b)[1..] == a[1..] + b;
      SumAppend(a[1..], b);
    }
  }

  /** Replacing one byte changes the sum by exactly the difference of the two values. */
  lemma {:induction false} SumUpdate(bs: seq<Byte>, i: nat, v: Byte)
    requires i < |bs|
    ensures Sum(bs[i := v]) == Sum(bs) - bs[i] + v
  {
    if i == 0 {
      assert bs[i := v][1..] == bs[1..];
    } else {
      assert bs[i := v][1..] == bs[1..][i - 1 := v];
      SumUpdate(bs[1..], i - 1, v);
    }
  }
}

=== FILE: handshake.dfy ===
/** The start-up exchange that switches the device into VS2 mode: send EOT,
    accept ENQ (or ACK followed by any byte), send the init bytes
    `16 00 00`, and expect ACK. */
module Handshake {
  import opened Bytes
  import opened Transport
  import opened Telegram

  const INIT: seq<Byte> := [0x16, 0x00, 0x00]

  /** How far the exchange has got. */
  datatype Stage =
    | AwaitFirst              // EOT sent, waiting for ENQ, or for ACK and one more byte
    | AwaitSecond             // ACK came first: one more byte is read, whatever it is
    | AwaitAck                // init bytes sent, waiting for the device's ACK
    | Initialized
    | Aborted(error: Error)
  {
    predicate Finished() { Initialized? || Aborted? }
  }

  datatype Outcome = Outcome(stage: Stage, ch: Channel)

  /** The bytes the handshake gets to read: those still to arrive once the
      input buffer has been reset, with `stale` bytes already buffered. */
  function Fresh(ch: Channel, stale: nat): (s: seq<Byte>)
    ensures |s| <= |ch.input| && ch.input[|ch.input| - |s|..] == s
  {
    if stale < |ch.input| then ch.input[stale..] else []
  }

  /** The last two steps of the handshake: send the init bytes, then
      `expectAck`. */
  function SendInit(ch: Channel): (r: Outcome)
    ensures r.stage.Finished()
    ensures r.stage == Initialized <==> ch.input != [] && ch.input[0] == ACK
  {
    var sent := Tx(ch, INIT);
    match ExpectAck(sent)
    case Err(e) => Outcome(Aborted(e), Read(sent, 1).ch)
    case Ok(done) => Outcome(Initialized, done)
  }

  /** The handshake as the start-up script performs it: EOT, flush, then
      the first byte decides. */
  function Handshake(ch: Channel, stale: nat): (r: Outcome)
    ensures r.stage.Finished()
  {
    var flushed := ResetInput(Tx(ch, [EOT]), stale);
    match Rx(flushed, 1)
    case Err(e) => Outcome(Aborted(e), flushed)
    case Ok(first) => Answer(first.bytes[0], first.ch)
  }

  /** What the script does after the first byte `b`: ENQ goes on to the init
      bytes; ACK reads one more byte, which is only reported when it is not
      ENQ, and goes on too; any other byte ends the program. A read timeout
      or an `expectAck` fault aborts. */
  function Answer(b: Byte, ch: Channel): (r: Outcome)
    ensures r.stage.Finished()
  {
    if b != ENQ then
      if b == ACK then
        match Rx(ch, 1)
        case Err(e) => Outcome(Aborted(e), ch)
        case Ok(second) => SendInit(second.ch)
      else
        Outcome(Aborted(Refused(b)), ch)
    else
      SendInit(ch)
  }

  /** One transition of the handshake on an incoming byte: the next stage and
      the bytes sent in response. */
  function Step(stage: Stage, b: Byte): (Stage, seq<Byte>)
    requires !stage.Finished()
  {
    match stage
    case AwaitFirst =>
      if b == ENQ then (AwaitAck, INIT)
      else if b == ACK then (AwaitSecond, [])
      else (Aborted(Refused(b)), [])
    case AwaitSecond => (AwaitAck, INIT)
    case AwaitAck =>
      if b == ACK then (Initialized, []) else (Aborted(AckFault(b)), [])
  }

  /** The result of running the machine over some incoming bytes. */
  datatype Run = Run(stage: Stage, consumed: nat, sent: seq<Byte>)

  /** Runs the machine until it finishes; running out of bytes is a timeout. */
  function RunMachine(stage: Stage, input: seq<Byte>): (r: Run)
    ensures r.stage.Finished()
    ensures r.consumed <= |input|
    decreases |input|
  {
    if stage.Finished() then Run(stage, 0, [])
    else if input == [] then Run(Aborted(Timeout), 0, [])
    else
      var (next, out) := Step(stage, input[0]);
      var rest := RunMachine(next, input[1..]);
      Run(rest.stage, rest.consumed + 1, out + rest.sent)
  }

  /** Sending the init bytes and awaiting the ACK is the machine run from
      `AwaitAck`. */
  lemma SendInitIsMachine(ch: Channel)
    ensures var m := RunMachine(AwaitAck, ch.input);
            SendInit(ch) == Outcome(m.stage, Channel(ch.input[m.consumed..], ch.written + INIT + m.sent))
  {
    if ch.input != [] {
      assert RunMachine(AwaitAck, ch.input).sent == [];
    }
  }

  /** The script's reaction to the first byte is the machine's step on it
      followed by the run over the bytes after it. */
  lemma AnswerIsMachine(b: Byte, ch: Channel)
    ensures var (stage, out) := Step(AwaitFirst, b);
            var m := RunMachine(stage, ch.input);
            Answer(b, ch) == Outcome(m.stage, Channel(ch.input[m.consumed..], ch.written + out + m.sent))
  {
    if b == ENQ {
      SendInitIsMachine(ch);
    } else if b == ACK && ch.input != [] {
      AckAnswerIsMachine(ch);
    }
  }

  /** After ACK: the second byte is consumed unseen, then the init bytes. */
  lemma AckAnswerIsMachine(ch: Channel)
    requires ch.input != []
    ensures var m := RunMachine(AwaitSecond, ch.input);
            Answer(ACK, ch) == Outcome(m.stage, Channel(ch.input[m.consumed..], ch.written + m.sent))
  {
    var next := Channel(ch.input[1..], ch.written);
    var m' := RunMachine(AwaitAck, ch.input[1..]);
    AckReadsSecond(ch);
    SendInitIsMachine(next);
    assert RunMachine(AwaitSecond, ch.input) == Run(m'.stage, m'.consumed + 1, INIT + m'.sent);
    assert ch.input[1..][m'.consumed..] == ch.input[m'.consumed + 1..];
    assert ch.written + INIT + m'.sent == ch.written + (INIT + m'.sent);
  }

  /** After ACK, the script reads one more byte and sends the init bytes. */
  lemma AckReadsSecond(ch: Channel)
    requires ch.input != []
    ensures Answer(ACK, ch) == SendInit(Channel(ch.input[1..], ch.written))
  {
    assert ch.input[..1] == [ch.input[0]];
  }

  /** The first read of the handshake: a timeout on no input, otherwise the
      reaction to the first byte on the bytes after it. */
  lemma HandshakeReadsFirst(ch: Channel, stale: nat)
    ensures var s := Fresh(ch, stale);
            var flushed := Channel(s, ch.written + [EOT]);
            Handshake(ch, stale) ==
              if s == [] then Outcome(Aborted(Timeout), flushed)
              else Answer(s[0], Channel(s[1..], ch.written + [EOT]))
  {
    var s := Fresh(ch, stale);
    assert ResetInput(Tx(ch, [EOT]), stale) == Channel(s, ch.written + [EOT]);
    if s != [] {
      assert s[..1] == [s[0]];
    }
  }

  /** One step of the machine on a non-empty input, spelled out. */
  lemma MachineFirstStep(stage: Stage, s: seq<Byte>)
    requires !stage.Finished() && s != []
    ensures var m := RunMachine(Step(stage, s[0]).0, s[1..]);
            RunMachine(stage, s) == Run(m.stage, m.consumed + 1, Step(stage, s[0]).1 + m.sent)
  {
  }

  /** The script's handshake is the machine run from `AwaitFirst` over the
      fresh bytes: same final stage, the bytes it consumed are gone from the
      input, and it wrote EOT followed by what the machine sent. */
  lemma HandshakeIsMachine(ch: Channel, stale: nat)
    ensures var s := Fresh(ch, stale);
            var m := RunMachine(AwaitFirst, s);
            Handshake(ch, stale) == Outcome(m.stage, Channel(s[m.consumed..], ch.written + [EOT] + m.sent))
  {
    var s := Fresh(ch, stale);
    var m := RunMachine(AwaitFirst, s);
    if s == [] {
      HandshakeReadsFirst(ch, stale);
    } else {
      var next := Channel(s[1..], ch.written + [EOT]);
      var step := Step(AwaitFirst, s[0]);
      var m' := RunMachine(step.0, s[1..]);
      assert Handshake(ch, stale) == Answer(s[0], next) by {
        HandshakeReadsFirst(ch, stale);
      }
      assert Answer(s[0], next) == Outcome(m'.stage, Channel(s[1..][m'.consumed..], next.written + step.1 + m'.sent)) by {
        AnswerIsMachine(s[0], next);
      }
      assert m == Run(m'.stage, m'.consumed + 1, step.1 + m'.sent) by {
        MachineFirstStep(AwaitFirst, s);
      }
      RunAfterFirst(Handshake(ch, stale), m, m', s, ch.written, step.1);
    }
  }

  /** Bookkeeping for `HandshakeIsMachine`: an outcome of the run after the
      first byte is the outcome of the whole run. */
  lemma RunAfterFirst(h: Outcome, m: Run, m': Run, s: seq<Byte>, w: seq<Byte>, out: seq<Byte>)
    requires s != [] && m'.consumed <= |s| - 1
    requires h == Outcome(m'.stage, Channel(s[1..][m'.consumed..], w + [EOT] + out + m'.sent))
    requires m == Run(m'.stage, m'.consumed + 1, out + m'.sent)
    ensures h == Outcome(m.stage, Channel(s[m.consumed..], w + [EOT] + m.sent))
  {
    assert s[1..][m'.consumed..] == s[m.consumed..];
  }

  /** From `AwaitAck` the machine finishes initialized exactly on an ACK,
      and sends nothing more. */
  lemma AwaitAckRun(t: seq<Byte>)
    ensures var m := RunMachine(AwaitAck, t);
            && (m.stage == Initialized <==> t != [] && t[0] == ACK)
            && m.sent == []
            && !(m.stage.Aborted? && m.stage.error.Refused?)
  {
    if t != [] {
      assert RunMachine(AwaitAck, t).sent == Step(AwaitAck, t[0]).1 + [];
    }
  }

  /** The bytes that complete the handshake: ENQ then ACK, or ACK, any
      byte, then ACK. */
  predicate InitSequence(s: seq<Byte>)
  {
    || (|s| >= 2 && s[0] == ENQ && s[1] == ACK)
    || (|s| >= 3 && s[0] == ACK && s[2] == ACK)
  }

  /** The machine finishes initialized exactly on ENQ, ACK or on ACK, any
      byte, ACK; it has then sent the init bytes once. */
  lemma MachineInitializes(s: seq<Byte>)
    ensures var m := RunMachine(AwaitFirst, s);
            && (m.stage == Initialized <==> InitSequence(s))
            && (m.stage == Initialized ==> m.sent == INIT)
  {
    var m := RunMachine(AwaitFirst, s);
    if s == [] {
    } else if s[0] == ENQ {
      var m' := RunMachine(AwaitAck, s[1..]);
      assert m == Run(m'.stage, m'.consumed + 1, INIT + m'.sent) by {
        MachineFirstStep(AwaitFirst, s);
      }
      AwaitAckRun(s[1..]);
    } else if s[0] == ACK {
      var t := s[1..];
      var m2 := RunMachine(AwaitSecond, t);
      assert m.stage == m2.stage && m.sent == m2.sent by {
        MachineFirstStep(AwaitFirst, s);
      }
      if t == [] {
        assert m2.stage == Aborted(Timeout);
      } else {
        var m' := RunMachine(AwaitAck, t[1..]);
        assert m2 == Run(m'.stage, m'.consumed + 1, INIT + m'.sent) by {
          MachineFirstStep(AwaitSecond, t);
        }
        AwaitAckRun(t[1..]);
        assert t[1..] == s[2..];
      }
    } else {
      assert m.stage == Aborted(Refused(s[0])) by {
        MachineFirstStep(AwaitFirst, s);
        assert RunMachine(Aborted(Refused(s[0])), s[1..]).stage == Aborted(Refused(s[0]));
      }
    }
  }

  /** The handshake reaches `Initialized` exactly when ENQ is followed by
      ACK, or ACK, any byte, ACK; it has then written EOT and the init bytes. */
  lemma HandshakeInitializes(ch: Channel, stale: nat)
    ensures var s := Fresh(ch, stale);
            var r := Handshake(ch, stale);
            && (r.stage == Initialized <==> InitSequence(s))
            && (r.stage == Initialized ==> r.ch.written == ch.written + [0x04, 0x16, 0x00, 0x00])
  {
    HandshakeIsMachine(ch, stale);
    InitializedOutcome(Handshake(ch, stale), ch.written, Fresh(ch, stale));
  }

  /** `HandshakeInitializes` for any outcome that agrees with the machine. */
  lemma InitializedOutcome(r: Outcome, w: seq<Byte>, s: seq<Byte>)
    requires var m := RunMachine(AwaitFirst, s);
      r.stage == m.stage && r.ch.written == w + [EOT] + m.sent
    ensures r.stage == Initialized <==> InitSequence(s)
    ensures r.stage == Initialized ==> r.ch.written == w + [0x04, 0x16, 0x00, 0x00]
  {
    MachineInitializes(s);
    assert [EOT] + INIT == [0x04, 0x16, 0x00, 0x00];
  }

  /** The machine refuses exactly a first byte that is neither ENQ nor
      ACK, and has then sent nothing. */
  lemma MachineRefuses(s: seq<Byte>)
    ensures var m := RunMachine(AwaitFirst, s);
            && (m.stage.Aborted? && m.stage.error.Refused? <==> s != [] && s[0] != ENQ && s[0] != ACK)
            && (m.stage.Aborted? && m.stage.error.Refused? ==> m.sent == [])
  {
    var m := RunMachine(AwaitFirst, s);
    if s == [] {
    } else if s[0] == ENQ {
      var m' := RunMachine(AwaitAck, s[1..]);
      assert m.stage == m'.stage by {
        MachineFirstStep(AwaitFirst, s);
      }
      AwaitAckRun(s[1..]);
    } else if s[0] == ACK {
      var t := s[1..];
      var m2 := RunMachine(AwaitSecond, t);
      assert m.stage == m2.stage by {
        MachineFirstStep(AwaitFirst, s);
      }
      if t != [] {
        var m' := RunMachine(AwaitAck, t[1..]);
        assert m2.stage == m'.stage by {
          MachineFirstStep(AwaitSecond, t);
        }
        AwaitAckRun(t[1..]);
      }
    } else {
      assert m == Run(Aborted(Refused(s[0])), 1, []) by {
        MachineFirstStep(AwaitFirst, s);
        assert RunMachine(Aborted(Refused(s[0])), s[1..]) == Run(Aborted(Refused(s[0])), 0, []);
      }
    }
  }

  /** The script exits before sending the init bytes exactly when the first
      byte is neither ENQ nor ACK; only EOT has been written by then. */
  lemma HandshakeExitsEarly(ch: Channel, stale: nat)
    ensures var s := Fresh(ch, stale);
            var r := Handshake(ch, stale);
            && (r.stage.Aborted? && r.stage.error.Refused? <==> s != [] && s[0] != ENQ && s[0] != ACK)
            && (r.stage.Aborted? && r.stage.error.Refused? ==> r.ch.written == ch.written + [0x04])
  {
    HandshakeIsMachine(ch, stale);
    RefusedOutcome(Handshake(ch, stale), ch.written, Fresh(ch, stale));
  }

  /** `HandshakeExitsEarly` for any outcome that agrees with the machine. */
  lemma RefusedOutcome(r: Outcome, w: seq<Byte>, s: seq<Byte>)
    requires var m := RunMachine(AwaitFirst, s);
      r.stage == m.stage && r.ch.written == w + [EOT] + m.sent
    ensures r.stage.Aborted? && r.stage.error.Refused? <==> s != [] && s[0] != ENQ && s[0] != ACK
    ensures r.stage.Aborted? && r.stage.error.Refused? ==> r.ch.written == w + [0x04]
  {
    MachineRefuses(s);
  }

  /** After ACK, the second byte is never checked: any value leads on to the
      init bytes, and an ACK to those completes the handshake. */
  lemma SecondByteIgnored(x: Byte, rest: seq<Byte>, w: seq<Byte>)
    ensures var r := Handshake(Channel([ACK, x, ACK] + rest, w), 0);
            r.stage == Initialized && r.ch == Channel(rest, w + [EOT] + INIT)
  {
    var s := [ACK, x, ACK] + rest;
    HandshakeIsMachine(Channel(s, w), 0);
    assert s[1..][1..] == s[2..];
    assert s[2..][1..] == rest;
  }
}

=== FILE: hexstrings.dfy ===
/** The two string helpers of the web page: `zeroPad` and `swapEndianess`,
    which turn a number's hexadecimal digits into the little-endian byte
    string the register API expects, and back. */
module HexStrings {

  /** The 17 zeros `zeroPad` puts in front of its argument. */
  const PADDING: string := Zeros(17)

  function Zeros(n: nat): (z: string)
    ensures |z| == n && forall i :: 0 <= i < n ==> z[i] == '0'
  {
    seq(n, _ => '0')
  }

  /** JavaScript's `s.slice(start)` for an integer `start`: a negative start
      counts from the end and is clamped to 0, a non-negative one is clamped
      to the length. */
  function Slice(s: string, start: int): (r: string)
    ensures |r| <= |s| && r == s[|s| - |r|..]
    ensures start < 0 && -start <= |s| ==> |r| == -start
    ensures start >= 0 && start <= |s| ==> |r| == |s| - start
    ensures start >= |s| ==> r == []
    ensures start <= -|s| ==> r == s
  {
    if start < 0 then
      if |s| + start > 0 then s[|s| + start..] else s
    else
      if start < |s| then s[start..] else []
  }

  /** `zeroPad(val, digits)`: seventeen zeros, then `val`, keeping the last
      `digits` characters. `slice(-0)` keeps everything, and a negative
      `digits` drops characters from the front instead. */
  function ZeroPad(val: string, digits: int): (r: string)
    ensures |r| <= |PADDING + val| && r == (PADDING + val)[|PADDING + val| - |r|..]
    ensures 0 < digits <= |val| + 17 ==> |r| == digits
    ensures 0 < digits <= |val| ==> r == val[|val| - digits..]
    ensures |val| <= digits <= |val| + 17 && digits > 0 ==> r == Zeros(digits - |val|) + val
    ensures digits == 0 || digits > |val| + 17 ==> r == PADDING + val
  {
    var padded := PADDING + val;
    var r := Slice(padded, -digits);
    if 0 < digits <= |val| + 17 then
      assert r == padded[|padded| - digits..];
      PaddedTail(val, digits);
      r
    else
      r
  }

  /** The last `k` characters of the padded string: the tail of `val` when
      `val` is long enough, zeros then `val` otherwise. */
  lemma PaddedTail(val: string, k: int)
    requires 0 < k <= |val| + 17
    ensures var padded := PADDING + val;
      && (k <= |val| ==> padded[|padded| - k..] == val[|val| - k..])
      && (|val| <= k ==> padded[|padded| - k..] == Zeros(k - |val|) + val)
  {
    var padded := PADDING + val;
    if k <= |val| {
      assert padded[|padded| - k..] == val[|val| - k..];
    }
    if |val| <= k {
      var m := k - |val|;
      assert PADDING[17 - m..] == Zeros(m);
      assert padded[|padded| - k..] == PADDING[17 - m..] + val;
    }
  }

  /** `swapEndianess`, one step of its loop at a time: the last two
      characters first, then the same for the rest. On an odd-length string
      the first character is never taken. */
  function Swap(v: string): (r: string)
    ensures |r| == |v| - |v| % 2
    decreases |v|
  {
    if |v| < 2 then [] else v[|v| - 2..] + Swap(v[..|v| - 2])
  }

  /** `swapEndianess` as the page writes it: a loop from the end of the
      string, two characters at a time. */
  method SwapEndianness(v: string) returns (r: string)
    ensures r == Swap(v)
    ensures |r| == |v| - |v| % 2
    ensures forall k :: 0 <= k < |r| ==> r[k] == v[|v| - 2 - 2 * (k / 2) + k % 2]
  {
    r := [];
    var len := |v| - 2;
    assert v[..|v|] == v;
    while len >= 0
      invariant -2 <= len <= |v| - 2
      invariant (|v| - len) % 2 == 0
      invariant r + Swap(v[..len + 2]) == Swap(v)
      decreases len + 2
    {
      assert v[..len + 2][..len] == v[..len];
      r := r + v[len..len + 2];
      len := len - 2;
    }
    forall k | 0 <= k < |r| {
      SwapAt(v, k);
    }
  }

  /** Character `k` of the swap is character `k % 2` of the `k / 2`-th pair
      counted from the end. */
  lemma {:induction false} SwapAt(v: string, k: nat)
    requires k < |Swap(v)|
    ensures Swap(v)[k] == v[|v| - 2 - 2 * (k / 2) + k % 2]
    decreases k
  {
    var front := v[..|v| - 2];
    var i := |v| - 2 - 2 * (k / 2) + k % 2;
    if k < 2 {
      assert k / 2 == 0 && k % 2 == k;
      assert Swap(v)[k] == v[|v| - 2..][k];
    } else {
      SwapAt(front, k - 2);
      assert (k - 2) / 2 == k / 2 - 1 && (k - 2) % 2 == k % 2;
      assert Swap(v)[k] == Swap(front)[k - 2] == front[i];
    }
  }

  /** An even-length string cut into its two-character groups, in order. */
  function Groups(s: string): (gs: seq<string>)
    requires |s| % 2 == 0
    ensures |gs| == |s| / 2
  {
    if s == [] then [] else [s[..2]] + Groups(s[2..])
  }

  function Concat(gs: seq<string>): string
  {
    if gs == [] then [] else gs[0] + Concat(gs[1..])
  }

  function Reverse<T>(xs: seq<T>): (ys: seq<T>)
    ensures |ys| == |xs|
  {
    if xs == [] then [] else [xs[|xs| - 1]] + Reverse(xs[..|xs| - 1])
  }

  /** Joining the groups gives back the string. */
  lemma {:induction false} ConcatGroups(s: string)
    requires |s| % 2 == 0
    ensures Concat(Groups(s)) == s
  {
    if s != [] {
      ConcatGroups(s[2..]);
    }
  }

  /** The last group of a string is its last two characters. */
  lemma {:induction false} GroupsSnoc(s: string)
    requires |s| % 2 == 0 && |s| >= 2
    ensures Groups(s) == Groups(s[..|s| - 2]) + [s[|s| - 2..]]
  {
    if |s| == 2 {
      assert s[..2] == s[|s| - 2..] && s[2..] == [] && s[..|s| - 2] == [];
    } else {
      var front := s[..|s| - 2];
      var tail := s[2..];
      GroupsSnoc(tail);
      assert tail[..|tail| - 2] == front[2..];
      assert tail[|tail| - 2..] == s[|s| - 2..];
      assert front[..2] == s[..2];
      calc {
        Groups(s);
        [s[..2]] + Groups(tail);
        [s[..2]] + (Groups(front[2..]) + [s[|s| - 2..]]);
        ([front[..2]] + Groups(front[2..])) + [s[|s| - 2..]];
        Groups(front) + [s[|s| - 2..]];
      }
    }
  }

  /** On an even-length string, `swapEndianess` returns the same
      two-character groups in reverse order. */
  lemma {:induction false} SwapReversesGroups(v: string)
    requires |v| % 2 == 0
    ensures Swap(v) == Concat(Reverse(Groups(v)))
  {
    if v != [] {
      var front := v[..|v| - 2];
      GroupsSnoc(v);
      SwapReversesGroups(front);
      var gs := Groups(front) + [v[|v| - 2..]];
      assert gs[..|gs| - 1] == Groups(front);
      assert Reverse(gs) == [v[|v| - 2..]] + Reverse(Groups(front));
      assert ([v[|v| - 2..]] + Reverse(Groups(front)))[1..] == Reverse(Groups(front));
    }
  }

  /** Swapping a concatenation of even-length parts swaps their order. */
  lemma {:induction false} SwapAppend(a: string, b: string)
    requires |a| % 2 == 0 && |b| % 2 == 0
    ensures Swap(a + b) == Swap(b) + Swap(a)
    decreases |b|
  {
    if b == [] {
      assert a + b == a;
    } else {
      var ab := a + b;
      assert ab[|ab| - 2..] == b[|b| - 2..];
      assert ab[..|ab| - 2] == a + b[..|b| - 2];
      SwapAppend(a, b[..|b| - 2]);
    }
  }

  /** `swapEndianess` undoes itself on even-length strings. */
  lemma {:induction false} SwapTwice(v: string)
    requires |v| % 2 == 0
    ensures Swap(Swap(v)) == v
    decreases |v|
  {
    if v != [] {
      var last := v[|v| - 2..];
      var front := v[..|v| - 2];
      assert Swap(v) == last + Swap(front);
      SwapAppend(last, Swap(front));
      SwapTwice(front);
      assert Swap(last) == last by {
        assert last[|last| - 2..] == last;
        assert Swap(last[..0]) == [];
      }
      assert front + last == v;
    }
  }

  /** On an odd-length string `swapEndianess` ignores the first character. */
  lemma {:induction false} SwapOddDropsFirst(v: string)
    requires |v| % 2 == 1
    ensures Swap(v) == Swap(v[1..])
    decreases |v|
  {
    if |v| > 1 {
      var u := v[1..];
      var front := v[..|v| - 2];
      assert Swap(v) == v[|v| - 2..] + Swap(front);
      assert Swap(u) == u[|u| - 2..] + Swap(u[..|u| - 2]);
      assert u[|u| - 2..] == v[|v| - 2..];
      assert u[..|u| - 2] == front[1..];
      SwapOddDropsFirst(front);
    }
  }

  /** Line 139 of the page: the digits `h` of a value, zero-padded to two
      characters per byte and swapped to little-endian, make exactly
      `2 * size` characters as long as they fit in the padding; and swapping
      them back, as `updateFromData` does, gives the padded digits. */
  lemma PaddedSwapLength(h: string, size: int)
    requires size >= 1 && |h| <= 2 * size <= |h| + 17
    ensures |Swap(ZeroPad(h, 2 * size))| == 2 * size
    ensures Swap(Swap(ZeroPad(h, 2 * size))) == Zeros(2 * size - |h|) + h
  {
    SwapTwice(ZeroPad(h, 2 * size));
  }
}

=== FILE: readings.dfy ===
/** The exporter's table of registers and the body of its polling loop: one
    `readAddr` per entry, in table order, each result passed through the
    entry's transformation. The timestamp, the database write and the sleep
    are not part of this model. */
module Readings {
  import opened Bytes
  import opened Transport
  import opened Telegram
  import opened Registers
  import opened Transformations

  /** The closed set of transformations the table names. */
  datatype Transformation = Temperature | Percentage

  datatype Reading = Reading(name: string, transformation: Transformation, address: int, count: int)

  datatype Field = Field(name: string, value: real)

  const READINGS: seq<Reading> := [
    Reading("KTS", Temperature, 0x0802, 2),
    Reading("ATS", Temperature, 0x0800, 2),
    Reading("RL17A", Temperature, 0x080A, 2),
    Reading("KTS_soll", Temperature, 0x555A, 2),
    Reading("Pact", Percentage, 0xA38F, 1)
  ]

  /** The number of register bytes a transformation decodes. */
  function Needs(t: Transformation): nat
  {
    match t
    case Temperature => 2
    case Percentage => 1
  }

  /** The byte strings a transformation accepts: `struct.unpack('<h')`
      wants exactly two, `v[0]` wants at least one. */
  predicate Accepts(t: Transformation, v: seq<Byte>)
  {
    match t
    case Temperature => |v| == 2
    case Percentage => |v| >= 1
  }

  /** The values a transformation can produce. */
  predicate InRange(t: Transformation, x: real)
  {
    match t
    case Temperature => -3276.8 <= x <= 3276.7
    case Percentage => 0.0 <= x <= 127.5
  }

  function Apply(t: Transformation, v: seq<Byte>): (x: real)
    requires Accepts(t, v)
    ensures InRange(t, x)
  {
    match t
    case Temperature => TemperatureShortToFloat(v)
    case Percentage => PercentageByteToFloat(v)
  }

  /** Each entry asks for exactly the bytes its transformation decodes. */
  predicate CountsMatch(readings: seq<Reading>)
  {
    forall i :: 0 <= i < |readings| ==> readings[i].count == Needs(readings[i].transformation)
  }

  /** Every entry's address and count fit the read request. */
  predicate Addressable(readings: seq<Reading>)
  {
    forall i :: 0 <= i < |readings| ==> 0 <= readings[i].address < 0x1_0000 && 0 <= readings[i].count < 0x100
  }

  /** The table is consistent: right byte counts, valid addresses, distinct names. */
  lemma ReadingsTableConsistent()
    ensures CountsMatch(READINGS) && Addressable(READINGS)
    ensures forall i, j :: 0 <= i < j < |READINGS| ==> READINGS[i].name != READINGS[j].name
    ensures forall i, v: seq<Byte> :: 0 <= i < |READINGS| && |v| == READINGS[i].count ==> Accepts(READINGS[i].transformation, v)
  {
  }

  /** The read requests of a table, in order, as framed on the wire. */
  function Requests(readings: seq<Reading>): seq<Byte>
    requires Addressable(readings)
  {
    if readings == [] then []
    else
      var e := readings[0];
      Frame([0x00, 0x01, e.address / 256, e.address % 256, e.count]) + Requests(readings[1..])
  }

  /** The response telegrams a table's reads receive, in order: for each
      entry ACK, then the frame of `01 01 addrHi addrLo cnt` followed by the
      data bytes read for it. */
  function Responses(readings: seq<Reading>, data: seq<seq<Byte>>): seq<Byte>
    requires Addressable(readings) && |data| == |readings|
    requires forall i :: 0 <= i < |data| ==> |data[i]| <= 250
  {
    if readings == [] then []
    else
      var e := readings[0];
      [ACK] + Frame([0x01, 0x01, e.address / 256, e.address % 256, e.count] + data[0])
        + Responses(readings[1..], data[1..])
  }

  /** The field for entry `e` was decoded from `bytes`, the data its read
      returned: same name, the entry's byte count, and the value its
      transformation gives for those bytes. */
  predicate EntryRead(e: Reading, bytes: seq<Byte>, f: Field)
  {
    && f.name == e.name
    && |bytes| == e.count <= 250
    && Accepts(e.transformation, bytes)
    && f.value == Apply(e.transformation, bytes)
  }

  /** The fields of one pass of the polling loop, the data bytes each entry's
      read returned, and the channel after it. */
  datatype Polled = Polled(fields: seq<Field>, data: seq<seq<Byte>>, ch: Channel)

  /** What one pass promises: each field is its entry's transformation of the
      bytes read for it, exactly the entries' read requests were written, and
      the input began with the entries' response telegrams, in table order. */
  predicate PolledFrom(ch: Channel, readings: seq<Reading>, p: Polled)
  {
    && Addressable(readings)
    && |p.fields| == |readings| && |p.data| == |readings|
    && (forall i :: 0 <= i < |readings| ==> EntryRead(readings[i], p.data[i], p.fields[i]))
    && p.ch.written == ch.written + Requests(readings)
    && ch.input == Responses(readings, p.data) + p.ch.input
  }

  /** A first read followed by a pass over the remaining entries is a pass
      over the whole table. */
  lemma PolledCons(ch: Channel, readings: seq<Reading>, got: Received, f: Field, rest: Polled)
    requires readings != []
    requires Exchanged(ch, readings[0].address, readings[0].count, got)
    requires EntryRead(readings[0], got.bytes, f)
    requires PolledFrom(got.ch, readings[1..], rest)
    ensures PolledFrom(ch, readings, Polled([f] + rest.fields, [got.bytes] + rest.data, rest.ch))
  {
    var fields := [f] + rest.fields;
    var data := [got.bytes] + rest.data;
    forall i | 0 <= i < |readings|
      ensures 0 <= readings[i].address < 0x1_0000 && 0 <= readings[i].count < 0x100
      ensures EntryRead(readings[i], data[i], fields[i])
    {
      if i > 0 {
        assert readings[i] == readings[1..][i - 1];
      }
    }
    assert data[1..] == rest.data;
  }

  /** The bytes read for the first entry are bytes its transformation
      accepts, and the rest of the table still matches its counts. */
  lemma FirstRead(readings: seq<Reading>, bytes: seq<Byte>)
    requires CountsMatch(readings) && readings != []
    requires |bytes| == readings[0].count
    ensures Accepts(readings[0].transformation, bytes)
    ensures CountsMatch(readings[1..])
  {
    assert forall i :: 0 <= i < |readings| - 1 ==> readings[1..][i] == readings[i + 1];
  }

  /** One pass of the loop body: read every entry in order and transform
      its bytes. On success there is one field per entry, named after it and
      holding its transformation of the bytes read for it; exactly the
      entries' read requests have been written, and the input held their
      responses, in table order. */
  function Poll(ch: Channel, readings: seq<Reading>): (r: Result<Polled>)
    requires CountsMatch(readings)
    ensures r.Ok? ==> PolledFrom(ch, readings, r.value)
    decreases |readings|
  {
    if readings == [] then Ok(Polled([], [], ch))
    else
      var e := readings[0];
      var got :- ReadAddr(ch, e.address, e.count);
      FirstRead(readings, got.bytes);
      var value := Apply(e.transformation, got.bytes);
      var rest :- Poll(got.ch, readings[1..]);
      PolledCons(ch, readings, got, Field(e.name, value), rest);
      Ok(Polled([Field(e.name, value)] + rest.fields, [got.bytes] + rest.data, rest.ch))
  }

  /** Conversely, when every entry's read is answered by the response
      telegram echoing its request, with the entry's byte count of data, the
      pass succeeds, reads exactly that data and consumes exactly those
      responses. */
  lemma {:induction false} PollReadsResponses(ch: Channel, readings: seq<Reading>, data: seq<seq<Byte>>, rest: seq<Byte>)
    requires CountsMatch(readings) && Addressable(readings) && |data| == |readings|
    requires forall i :: 0 <= i < |readings| ==> |data[i]| == readings[i].count
    requires ch.input == Responses(readings, data) + rest
    ensures Poll(ch, readings).Ok?
    ensures Poll(ch, readings).value.data == data && Poll(ch, readings).value.ch.input == rest
    decreases |readings|
  {
    if readings != [] {
      var e := readings[0];
      ResponsesHead(readings, data, rest);
      ReadsResponse(ch, e, data[0], Responses(readings[1..], data[1..]) + rest);
      var got := ReadAddr(ch, e.address, e.count).value;
      TableTail(readings, data);
      PollReadsResponses(got.ch, readings[1..], data[1..], rest);
      PollStep(ch, readings, got);
      assert [data[0]] + data[1..] == data;
    }
  }

  /** The responses of a table begin with those of its first entry. */
  lemma ResponsesHead(readings: seq<Reading>, data: seq<seq<Byte>>, rest: seq<Byte>)
    requires Addressable(readings) && |data| == |readings| && readings != []
    requires forall i :: 0 <= i < |data| ==> |data[i]| <= 250
    ensures Addressable(readings[1..])
    ensures forall i :: 0 <= i < |data| - 1 ==> |data[1..][i]| <= 250
    ensures var e := readings[0];
      Responses(readings, data) + rest
        == [ACK] + Frame([0x01, 0x01, e.address / 256, e.address % 256, e.count] + data[0])
           + (Responses(readings[1..], data[1..]) + rest)
  {
    assert forall i :: 0 <= i < |readings| - 1 ==> readings[1..][i] == readings[i + 1];
  }

  /** What the entries after the first still satisfy. */
  lemma TableTail(readings: seq<Reading>, data: seq<seq<Byte>>)
    requires CountsMatch(readings) && Addressable(readings) && |data| == |readings| && readings != []
    requires forall i :: 0 <= i < |readings| ==> |data[i]| == readings[i].count
    ensures CountsMatch(readings[1..]) && Addressable(readings[1..])
    ensures forall i :: 0 <= i < |readings| - 1 ==> |data[1..][i]| == readings[1..][i].count
  {
    assert forall i :: 0 <= i < |readings| - 1 ==> readings[1..][i] == readings[i + 1] && data[1..][i] == data[i + 1];
  }

  /** The read of one entry answered by its echoing response returns the
      data in it and leaves the bytes after it. */
  lemma ReadsResponse(ch: Channel, e: Reading, d: seq<Byte>, after: seq<Byte>)
    requires 0 <= e.address < 0x1_0000 && 0 <= e.count <= 250 && |d| == e.count
    requires ch.input == [ACK] + Frame([0x01, 0x01, e.address / 256, e.address % 256, e.count] + d) + after
    ensures ReadAddr(ch, e.address, e.count).Ok?
    ensures ReadAddr(ch, e.address, e.count).value.bytes == d
    ensures ReadAddr(ch, e.address, e.count).value.ch.input == after
  {
    var response: seq<Byte> := [0x01, 0x01, e.address / 256, e.address % 256, e.count] + d;
    assert response[1..5] == [0x01, e.address / 256, e.address % 256, e.count];
    assert response[5..] == d;
    ReadAddrAccepts(e.address, e.count, response, after, ch.written);
  }

  /** A pass whose first read succeeds and whose remaining reads succeed
      returns the first read's data ahead of the rest. */
  lemma PollStep(ch: Channel, readings: seq<Reading>, got: Received)
    requires CountsMatch(readings) && readings != []
    requires ReadAddr(ch, readings[0].address, readings[0].count) == Ok(got)
    requires CountsMatch(readings[1..]) && Poll(got.ch, readings[1..]).Ok?
    ensures Poll(ch, readings).Ok?
    ensures Poll(ch, readings).value.data == [got.bytes] + Poll(got.ch, readings[1..]).value.data
    ensures Poll(ch, readings).value.ch == Poll(got.ch, readings[1..]).value.ch
  {
  }
}

=== FILE: registers.dfy ===
/** `readAddr`: one read transaction. The request payload is
    `00 01 addrHi addrLo cnt`; the response must be `01`, the four echoed
    request bytes, then exactly `cnt` data bytes. */
module Registers {
  import opened Bytes
  import opened Transport
  import opened Telegram

  const STATUS_OK: Byte := 0x01

  /** `struct.pack('>BBHB', 0, 1, addr, cnt)`: reserved byte, read service,
      big-endian address, count; the packing fails when a field does not fit. */
  function ReadRequest(addr: int, cnt: int): (r: Result<seq<Byte>>)
    ensures r.Ok? <==> 0 <= addr < 0x1_0000 && 0 <= cnt < 0x100
    ensures r.Err? ==> r.error == PackRange
    ensures r.Ok? ==> |r.value| == 5 && r.value[0] == 0x00 && r.value[1] == 0x01
    ensures r.Ok? ==> (r.value[2] as int) * 256 + r.value[3] == addr && r.value[4] == cnt
  {
    if 0 <= addr < 0x1_0000 && 0 <= cnt < 0x100 then
      Ok([0x00, 0x01, addr / 256, addr % 256, cnt])
    else
      Err(PackRange)
  }

  /** The checks `readAddr` applies to the decoded response payload. */
  function CheckResponse(request: seq<Byte>, cnt: int, response: Received): (r: Result<Received>)
    requires |request| == 5 && 0 <= cnt < 0x100
    ensures r.Ok? <==> |response.bytes| == 5 + cnt && response.bytes[..5] == [STATUS_OK] + request[1..5]
    ensures r.Ok? ==> r.value == Received(response.bytes[5..], response.ch)
    ensures r.Err? && |response.bytes| != 5 + cnt ==> r.error == LengthMismatch
    ensures r.Err? && |response.bytes| == 5 + cnt ==> r.error == ResponseMismatch
  {
    if |response.bytes| != 5 + cnt then Err(LengthMismatch)
    else if response.bytes[0] != 0x01 || response.bytes[1..5] != request[1..5] then Err(ResponseMismatch)
    else
      assert response.bytes[..5] == [response.bytes[0]] + response.bytes[1..5];
      Ok(Received(response.bytes[5..], response.ch))
  }

  /** The exchange behind a successful read of `cnt` bytes at `addr`: the
      frame of the request `00 01 addrHi addrLo cnt` was written, and the
      input began with ACK and the frame of the response `01 01 addrHi
      addrLo cnt` followed by the data, which is `got.bytes`. */
  predicate Exchanged(ch: Channel, addr: int, cnt: int, got: Received)
  {
    && 0 <= addr < 0x1_0000 && 0 <= cnt <= 250
    && |got.bytes| == cnt
    && got.ch.written == ch.written + Frame([0x00, 0x01, addr / 256, addr % 256, cnt])
    && ch.input == [ACK] + Frame([0x01, 0x01, addr / 256, addr % 256, cnt] + got.bytes) + got.ch.input
  }

  /** An accepted response, with the telegram facts about it, is such an
      exchange. */
  lemma AcceptedExchange(ch: Channel, addr: int, cnt: int, request: seq<Byte>, response: Received, r: Result<Received>)
    requires 0 <= addr < 0x1_0000 && 0 <= cnt < 0x100
    requires request == [0x00, 0x01, addr / 256, addr % 256, cnt]
    requires |response.bytes| <= 255 && ch.input == [ACK] + Frame(response.bytes) + response.ch.input
    requires response.ch.written == ch.written + Frame(request)
    requires r == CheckResponse(request, cnt, response) && r.Ok?
    ensures Exchanged(ch, addr, cnt, r.value)
  {
    var bytes := response.bytes;
    var echo: seq<Byte> := [0x01, 0x01, addr / 256, addr % 256, cnt];
    assert bytes[..5] == echo by {
      assert request[1..5] == [0x01, addr / 256, addr % 256, cnt];
      assert [STATUS_OK] + request[1..5] == echo;
    }
    assert bytes == echo + r.value.bytes by {
      assert bytes == bytes[..5] + bytes[5..];
    }
  }

  /** `readAddr`: sends the read request and checks the response telegram
      against it. On success the data bytes, and the channel after them,
      come from exactly the exchange `Exchanged` describes. */
  function ReadAddr(ch: Channel, addr: int, cnt: int): (r: Result<Received>)
    ensures !(0 <= addr < 0x1_0000 && 0 <= cnt < 0x100) ==> r == Err(PackRange)
    ensures r.Ok? ==> Exchanged(ch, addr, cnt, r.value)
  {
    var request :- ReadRequest(addr, cnt);
    var sent := SendTelegram(ch, request).value;
    var response :- ReadTelegram(sent);
    var r := CheckResponse(request, cnt, response);
    if r.Ok? then
      assert |response.bytes| <= 255 && sent.input == [ACK] + Frame(response.bytes) + response.ch.input
          && response.ch.written == sent.written by {
        ReadTelegramSucceeds(sent);
      }
      AcceptedExchange(ch, addr, cnt, request, response, r);
      r
    else
      r
  }

  /** Given the device's response telegram, `readAddr` succeeds exactly when
      the response has length 5 + cnt, status 0x01 and the echoed request
      bytes, and then returns the bytes after them. Every other response,
      status 0x03 included, is an error. */
  lemma ReadAddrAccepts(addr: int, cnt: int, response: seq<Byte>, rest: seq<Byte>, w: seq<Byte>)
    requires 0 <= addr < 0x1_0000 && 0 <= cnt < 0x100
    requires |response| <= 255
    ensures var r := ReadAddr(Channel([ACK] + Frame(response) + rest, w), addr, cnt);
      && (r.Ok? <==> |response| == 5 + cnt && response[0] == 0x01 && response[1..5] == [0x01, addr / 256, addr % 256, cnt])
      && (r.Ok? ==> r.value.bytes == response[5..] && r.value.ch.input == rest)
      && (|response| == 5 + cnt && response[0] != 0x01 ==> r == Err(ResponseMismatch))
  {
    var ch := Channel([ACK] + Frame(response) + rest, w);
    var request := ReadRequest(addr, cnt).value;
    var sent := SendTelegram(ch, request).value;
    var got := Received(response, Channel(rest, sent.written));
    assert ReadAddr(ch, addr, cnt) == CheckResponse(request, cnt, got) by {
      assert ReadTelegram(sent) == Ok(got) by {
        RoundTrip(response, rest, sent.written);
        assert sent.input == [ACK] + SendTelegram(Channel([], []), response).value.written + rest;
      }
    }
    EchoAccepted(addr, cnt, request, got);
  }

  /** The response check against a request for `addr` and `cnt`, spelled
      out byte by byte. */
  lemma EchoAccepted(addr: int, cnt: int, request: seq<Byte>, got: Received)
    requires 0 <= addr < 0x1_0000 && 0 <= cnt < 0x100
    requires request == [0x00, 0x01, addr / 256, addr % 256, cnt]
    ensures var r := CheckResponse(request, cnt, got);
      && (r.Ok? <==> |got.bytes| == 5 + cnt && got.bytes[0] == 0x01 && got.bytes[1..5] == [0x01, addr / 256, addr % 256, cnt])
      && (r.Ok? ==> r.value == Received(got.bytes[5..], got.ch))
      && (|got.bytes| == 5 + cnt && got.bytes[0] != 0x01 ==> r == Err(ResponseMismatch))
  {
    assert request[1..5] == [0x01, addr / 256, addr % 256, cnt];
    if |got.bytes| == 5 + cnt {
      assert got.bytes[..5] == [got.bytes[0]] + got.bytes[1..5];
    }
  }

  /** The read of the boiler temperature at 0x0802: a response carrying
      `09 01` yields exactly those two bytes. */
  lemma BoilerTemperatureRead(rest: seq<Byte>, w: seq<Byte>)
    ensures var response := [0x01, 0x01, 0x08, 0x02, 0x02, 0x09, 0x01];
            var r := ReadAddr(Channel([ACK] + Frame(response) + rest, w), 0x0802, 2);
            r.Ok? && r.value.bytes == [0x09, 0x01] && r.value.ch.input == rest
  {
    var response: seq<Byte> := [0x01, 0x01, 0x08, 0x02, 0x02, 0x09, 0x01];
    assert response[1..5] == [0x01, 0x0802 / 256, 0x0802 % 256, 2];
    assert response[5..] == [0x09, 0x01];
    ReadAddrAccepts(0x0802, 2, response, rest, w);
  }
}

=== FILE: telegram.dfy ===
/** VS2 telegram framing: `0x41, length, payload, checksum`, where the
    checksum is the payload sum plus the length, modulo 256; and the control
    bytes exchanged outside telegrams. */
module Telegram {
  import opened Bytes
  import opened Transport

  const EOT: Byte := 0x04
  const ENQ: Byte := 0x05
  const ACK: Byte := 0x06
  const NAK: Byte := 0x15
  const START: Byte := 0x41

  function Checksum(payload: seq<Byte>): Byte
  {
    (Sum(payload) + |payload|) % 256
  }

  /** The bytes of the telegram carrying `payload`. */
  function Frame(payload: seq<Byte>): (t: seq<Byte>)
    requires |payload| <= 255
    ensures |t| == |payload| + 3
    ensures t[0] == START && t[1] == |payload| && t[|payload| + 2] == Checksum(payload)
    ensures t[2..|payload| + 2] == payload
  {
    [START, |payload|] + payload + [Checksum(payload)]
  }

  /** `sendTelegram`: writes the framed payload; `struct.pack('BB', ...)`
      raises before anything is written when the length does not fit a byte. */
  function SendTelegram(ch: Channel, payload: seq<Byte>): (r: Result<Channel>)
    ensures r.Ok? <==> |payload| <= 255
    ensures r.Err? ==> r.error == PackRange
    ensures r.Ok? ==> r.value.input == ch.input
    ensures r.Ok? ==> r.value.written == ch.written + [0x41, |payload|] + payload + [(Sum(payload) + |payload|) % 256]
  {
    if |payload| > 255 then Err(PackRange)
    else Ok(Tx(ch, Frame(payload)))
  }

  /** The error `expectAck` raises for a byte other than ACK. */
  function AckFault(b: Byte): Error
  {
    if b == NAK then Nak else if b == ENQ then Enq else NotAck(b)
  }

  /** `expectAck`: consumes one byte and accepts only ACK. */
  function ExpectAck(ch: Channel): (r: Result<Channel>)
    ensures r.Ok? <==> ch.input != [] && ch.input[0] == ACK
    ensures r.Ok? ==> r.value == ch.(input := ch.input[1..])
    ensures ch.input == [] ==> r == Err(Timeout)
    ensures ch.input != [] && ch.input[0] == NAK ==> r == Err(Nak)
    ensures ch.input != [] && ch.input[0] == ENQ ==> r == Err(Enq)
    ensures ch.input != [] && ch.input[0] !in {ACK, NAK, ENQ} ==> r == Err(NotAck(ch.input[0]))
  {
    var ack :- Rx(ch, 1);
    if ack.bytes[0] == NAK then Err(Nak)
    else if ack.bytes[0] == ENQ then Err(Enq)
    else if ack.bytes[0] == ACK then Ok(ack.ch)
    else Err(NotAck(ack.bytes[0]))
  }

  /** The incoming bytes begin with an ACK and a complete telegram whose
      checksum is right: the condition under which a telegram can be read. */
  predicate HoldsTelegram(s: seq<Byte>)
  {
    && |s| >= 3
    && s[0] == ACK
    && s[1] == START
    && (s[2] as int) + 4 <= |s|
    && s[s[2] + 3] == Checksum(s[3..s[2] + 3])
  }

  /** The last step of `readTelegram`, once the length byte `n` is known:
      `n + 1` bytes of payload and checksum, and the checksum test. */
  function ReadBody(ch: Channel, n: Byte): (r: Result<Received>)
    ensures r.Ok? <==> n + 1 <= |ch.input| && ch.input[n] == Checksum(ch.input[..n])
    ensures r.Ok? ==> r.value.bytes == ch.input[..n] && r.value.ch == ch.(input := ch.input[n + 1..])
    ensures ch.input == [] ==> r == Err(Timeout)
    ensures 0 < |ch.input| < n + 1 ==> r == Err(ShortRead)
    ensures n + 1 <= |ch.input| && ch.input[n] != Checksum(ch.input[..n]) ==> r == Err(ChecksumMismatch)
  {
    var body :- Rx(ch, n + 1);
    if |body.bytes| != n + 1 then Err(ShortRead)
    else
      var checksum := body.bytes[n];
      var calculated := (Sum(body.bytes[..n]) + n) % 256;
      assert body.bytes[..n] == ch.input[..n];
      if checksum != calculated then Err(ChecksumMismatch)
      else Ok(Received(body.bytes[..n], body.ch))
  }

  /** `readTelegram` without its leading `expectAck`: start marker, length
      byte, then the body. */
  function ReadFrame(ch: Channel): (r: Result<Received>)
    ensures r.Ok? <==> 2 <= |ch.input| && ch.input[0] == START && ReadBody(ch.(input := ch.input[2..]), ch.input[1]).Ok?
    ensures 2 <= |ch.input| && ch.input[0] == START ==> r == ReadBody(ch.(input := ch.input[2..]), ch.input[1])
    ensures ch.input == [] ==> r == Err(Timeout)
    ensures ch.input != [] && ch.input[0] != START ==> r == Err(BadStart(ch.input[0]))
    ensures |ch.input| == 1 && ch.input[0] == START ==> r == Err(Timeout)
  {
    var start :- Rx(ch, 1);
    if start.bytes[0] != START then Err(BadStart(start.bytes[0]))
    else
      var length :- Rx(start.ch, 1);
      assert length.ch == ch.(input := ch.input[2..]);
      ReadBody(length.ch, length.bytes[0])
  }

  /** `readTelegram`: ACK, start marker, length byte, then length + 1 bytes of
      payload and checksum. Returns the payload and the channel after it. */
  function ReadTelegram(ch: Channel): (r: Result<Received>)
    ensures ch.input == [] ==> r == Err(Timeout)
    ensures ch.input != [] && ch.input[0] != ACK ==> r == Err(AckFault(ch.input[0]))
    ensures ch.input != [] && ch.input[0] == ACK ==> r == ReadFrame(ch.(input := ch.input[1..]))
  {
    var afterAck :- ExpectAck(ch);
    ReadFrame(afterAck)
  }

  /** Past the ACK and the start marker, `readTelegram` is the body read
      after the length byte. */
  lemma ReadTelegramReachesBody(ch: Channel)
    requires |ch.input| >= 3 && ch.input[0] == ACK && ch.input[1] == START
    ensures ReadTelegram(ch) == ReadBody(Channel(ch.input[3..], ch.written), ch.input[2])
  {
    assert ch.(input := ch.input[1..]).(input := ch.input[1..][2..]) == ch.(input := ch.input[3..]);
  }

  /** A well-formed telegram after an ACK splits into the ACK, the frame of
      its payload, and what follows. */
  lemma HeldTelegramSplits(s: seq<Byte>)
    requires HoldsTelegram(s)
    ensures s == [ACK] + Frame(s[3..s[2] + 3]) + s[s[2] + 4..]
  {
    var n: int := s[2];
    var p := s[3..n + 3];
    var t := [ACK] + Frame(p) + s[n + 4..];
    assert |t| == |s|;
    forall i | 0 <= i < |s|
      ensures s[i] == t[i]
    {
      if 3 <= i < n + 3 {
        assert t[i] == p[i - 3];
      }
    }
  }

  /** Before the length byte: the ACK and start-marker faults, and the
      timeouts while reading them and the length. */
  lemma ReadTelegramHeaderFaults(ch: Channel)
    ensures var r := ReadTelegram(ch);
      && (ch.input == [] ==> r == Err(Timeout))
      && (ch.input != [] && ch.input[0] != ACK ==> r == Err(AckFault(ch.input[0])))
      && (|ch.input| == 1 && ch.input[0] == ACK ==> r == Err(Timeout))
      && (|ch.input| >= 2 && ch.input[0] == ACK && ch.input[1] != START ==> r == Err(BadStart(ch.input[1])))
      && (|ch.input| == 2 && ch.input[0] == ACK && ch.input[1] == START ==> r == Err(Timeout))
  {
    var s := ch.input;
    if |s| >= 1 && s[0] == ACK {
      var after := ch.(input := s[1..]);
      assert ReadTelegram(ch) == ReadFrame(after);
      if |s| == 2 && s[1] == START {
        assert ReadFrame(after) == ReadBody(after.(input := []), s[1]);
      }
    }
  }

  /** After the length byte `n`: a timeout or short read when fewer than
      n + 1 bytes follow, the checksum test otherwise. */
  lemma ReadTelegramBodyFaults(ch: Channel)
    requires |ch.input| >= 3 && ch.input[0] == ACK && ch.input[1] == START
    ensures var r := ReadTelegram(ch);
      && (|ch.input| == 3 ==> r == Err(Timeout))
      && (3 < |ch.input| < (ch.input[2] as int) + 4 ==> r == Err(ShortRead))
      && ((ch.input[2] as int) + 4 <= |ch.input| ==>
            (r.Ok? <==> HoldsTelegram(ch.input))
            && (!r.Ok? ==> r == Err(ChecksumMismatch)))
  {
    ReadTelegramReachesBody(ch);
    BodyAfterHeader(Channel(ch.input[3..], ch.written), ch.input);
  }

  /** `ReadBody` on the bytes after the header of `s`, in terms of `s`. */
  lemma BodyAfterHeader(body: Channel, s: seq<Byte>)
    requires |s| >= 3 && body.input == s[3..]
    ensures var b := ReadBody(body, s[2]);
      && (|s| == 3 ==> b == Err(Timeout))
      && (3 < |s| < (s[2] as int) + 4 ==> b == Err(ShortRead))
      && ((s[2] as int) + 4 <= |s| ==>
            (b.Ok? <==> s[s[2] + 3] == Checksum(s[3..s[2] + 3]))
            && (!b.Ok? ==> b == Err(ChecksumMismatch)))
  {
    var n: int := s[2];
    if n + 4 <= |s| {
      assert s[3..][..n] == s[3..n + 3];
      assert s[3..][n] == s[n + 3];
    }
  }

  /** `ReadBody` on the bytes after the header of a well-formed telegram. */
  lemma BodyPayload(w: seq<Byte>, s: seq<Byte>)
    requires HoldsTelegram(s)
    ensures ReadBody(Channel(s[3..], w), s[2]) == Ok(Received(s[3..s[2] + 3], Channel(s[s[2] + 4..], w)))
  {
    BodyAfterHeader(Channel(s[3..], w), s);
    assert s[3..][..s[2]] == s[3..s[2] + 3];
    assert s[3..][s[2] + 1..] == s[s[2] + 4..];
  }

  /** `readTelegram` succeeds exactly on a well-formed telegram after an ACK,
      and then returns its payload and the bytes that follow it. */
  lemma ReadTelegramSucceeds(ch: Channel)
    ensures var r := ReadTelegram(ch);
      && (r.Ok? <==> HoldsTelegram(ch.input))
      && (r.Ok? ==> |r.value.bytes| <= 255 && r.value.ch.written == ch.written
                    && ch.input == [ACK] + Frame(r.value.bytes) + r.value.ch.input)
  {
    var s := ch.input;
    if HoldsTelegram(s) {
      ReadTelegramReachesBody(ch);
      BodyPayload(ch.written, s);
      HeldTelegramSplits(s);
    } else if |s| >= 3 && s[0] == ACK && s[1] == START {
      ReadTelegramBodyFaults(ch);
    } else {
      ReadTelegramHeaderFaults(ch);
    }
  }

  /** When `readTelegram` fails, the error is the one of the first check that
      trips: ACK, start marker, the reads of length and body, the checksum. */
  lemma ReadTelegramFaults(ch: Channel)
    ensures var r := ReadTelegram(ch);
      && (ch.input == [] ==> r == Err(Timeout))
      && (ch.input != [] && ch.input[0] != ACK ==> r == Err(AckFault(ch.input[0])))
      && (|ch.input| == 1 && ch.input[0] == ACK ==> r == Err(Timeout))
      && (|ch.input| >= 2 && ch.input[0] == ACK && ch.input[1] != START ==> r == Err(BadStart(ch.input[1])))
      && (2 <= |ch.input| <= 3 && ch.input[0] == ACK && ch.input[1] == START ==> r == Err(Timeout))
      && (3 < |ch.input| < (ch.input[2] as int) + 4 && ch.input[0] == ACK && ch.input[1] == START ==> r == Err(ShortRead))
      && ((!HoldsTelegram(ch.input) && |ch.input| >= 3 && ch.input[0] == ACK && ch.input[1] == START
           && (ch.input[2] as int) + 4 <= |ch.input|) ==> r == Err(ChecksumMismatch))
  {
    ReadTelegramHeaderFaults(ch);
    if |ch.input| >= 3 && ch.input[0] == ACK && ch.input[1] == START {
      ReadTelegramBodyFaults(ch);
    }
  }

  /** Round trip: what `sendTelegram` writes, preceded by an ACK, is read back
      by `readTelegram` as the same payload, consuming exactly |p| + 4 bytes. */
  lemma RoundTrip(p: seq<Byte>, rest: seq<Byte>, w: seq<Byte>)
    requires |p| <= 255
    ensures var sent := SendTelegram(Channel([], []), p);
            && sent.Ok?
            && |sent.value.written| + 1 == |p| + 4
            && ReadTelegram(Channel([ACK] + sent.value.written + rest, w)) == Ok(Received(p, Channel(rest, w)))
  {
    var s := [ACK] + Frame(p) + rest;
    assert SendTelegram(Channel([], []), p).value.written == Frame(p);
    FrameHeld(p, rest);
    ReadTelegramReachesBody(Channel(s, w));
    BodyPayload(w, s);
  }

  /** A frame after an ACK is a well-formed telegram, whatever follows it. */
  lemma FrameHeld(p: seq<Byte>, rest: seq<Byte>)
    requires |p| <= 255
    ensures var s := [ACK] + Frame(p) + rest;
      HoldsTelegram(s) && s[2] == |p| && s[3..|p| + 3] == p && s[|p| + 4..] == rest
  {
    var s := [ACK] + Frame(p) + rest;
    assert s[2] == |p| && s[3..|p| + 3] == p && s[|p| + 4..] == rest;
    assert s[|p| + 3] == Checksum(p);
  }

  /** Changing one byte of a telegram's payload, or its checksum byte, to a
      different value makes `readTelegram` fail its checksum test. Position
      `j` counts from the start marker. */
  lemma CorruptionDetected(p: seq<Byte>, j: nat, v: Byte, rest: seq<Byte>, w: seq<Byte>)
    requires |p| <= 255
    requires 2 <= j < |p| + 3
    requires v != Frame(p)[j]
    ensures ReadTelegram(Channel([ACK] + Frame(p)[j := v] + rest, w)) == Err(ChecksumMismatch)
  {
    var t := Frame(p)[j := v];
    var s := [ACK] + t + rest;
    assert s[0] == ACK && s[1] == START && s[2] == |p|;
    assert |s| >= |p| + 4;
    if j == |p| + 2 {
      assert s[3..|p| + 3] == p;
      assert s[|p| + 3] == v;
    } else {
      var q := p[j - 2 := v];
      assert s[3..|p| + 3] == q;
      assert s[|p| + 3] == Checksum(p);
      SumUpdate(p, j - 2, v);
      ChecksumsDiffer(Sum(p) + |p|, Sum(q) + |p|);
    }
    assert !HoldsTelegram(s);
    ReadTelegramBodyFaults(Channel(s, w));
  }

  /** Two naturals closer than 256 apart but not equal differ modulo 256. */
  lemma ChecksumsDiffer(a: nat, b: nat)
    requires a != b && a - b < 256 && b - a < 256
    ensures a % 256 != b % 256
  {
  }
}

=== FILE: transformations.dfy ===
/** `Transformations`: raw register bytes to numbers. The two float-valued
    ones are stated over exact reals. */
module Transformations {
  import opened Bytes

  /** `struct.unpack('<h', v)`: a signed 16-bit integer, low byte first. */
  function ShortToInt(v: seq<Byte>): (x: int)
    requires |v| == 2
    ensures -0x8000 <= x < 0x8000
    ensures x % 0x1_0000 == v[0] as int + 256 * (v[1] as int)
    ensures x < 0 <==> v[1] >= 0x80
  {
    var unsigned := v[0] as int + 256 * (v[1] as int);
    if unsigned >= 0x8000 then unsigned - 0x1_0000 else unsigned
  }

  /** `struct.pack('<h', x)`: the two bytes `ShortToInt` reads back as `x`. */
  function ShortBytes(x: int): (v: seq<Byte>)
    requires -0x8000 <= x < 0x8000
    ensures |v| == 2
  {
    var unsigned := x % 0x1_0000;
    [unsigned % 256, unsigned / 256]
  }

  /** Every 16-bit signed value survives packing and unpacking. */
  lemma ShortRoundTrip(x: int)
    requires -0x8000 <= x < 0x8000
    ensures ShortToInt(ShortBytes(x)) == x
  {
  }

  /** Every two bytes survive unpacking and packing: no two byte pairs decode alike. */
  lemma ShortBytesRoundTrip(v: seq<Byte>)
    requires |v| == 2
    ensures ShortBytes(ShortToInt(v)) == v
  {
  }

  /** `temperatureShortToFloat`: tenths of a degree. */
  function TemperatureShortToFloat(v: seq<Byte>): (t: real)
    requires |v| == 2
    ensures t * 10.0 == ShortToInt(v) as real
    ensures -3276.8 <= t <= 3276.7
  {
    ShortToInt(v) as real / 10.0
  }

  /** `byteToInt`: the first byte, unsigned; any further bytes are ignored. */
  function ByteToInt(v: seq<Byte>): (x: int)
    requires |v| >= 1
    ensures 0 <= x < 256
  {
    v[0]
  }

  /** Bytes after the first do not change what `byteToInt` returns. */
  lemma ByteToIntIgnoresTail(v: seq<Byte>, w: seq<Byte>)
    requires |v| >= 1
    ensures ByteToInt(v + w) == ByteToInt(v) == v[0]
  {
  }

  /** `percentageByteToFloat`: half-percent steps. */
  function PercentageByteToFloat(v: seq<Byte>): (p: real)
    requires |v| >= 1
    ensures p * 2.0 == ByteToInt(v) as real
    ensures 0.0 <= p <= 127.5
  {
    v[0] as real / 2.0
  }

  /** The boiler temperature bytes `09 01` read as 265 tenths, 26.5 degrees. */
  lemma BoilerTemperatureValue()
    ensures ShortToInt([0x09, 0x01]) == 265
    ensures TemperatureShortToFloat([0x09, 0x01]) == 26.5
  {
  }
}

=== FILE: transport.dfy ===
/** The serial link as the client sees it: a finite sequence of bytes that
    will arrive (reads consume a prefix of it) and a log of every byte written.
    The exceptions raised on the protocol path become `Error` values: the
    `Err` of a `Result` here and in the telegram and register modules, and
    the stage `Aborted(e)` in the handshake, where `sys.exit(1)` is
    `Refused`. An `Err` carries no channel. */
module Transport {
  import opened Bytes

  /** Every way a call of the client can end without a value. The client
      has no error types of its own: the link faults here sit beside the
      errors `readAddr` raises (`LengthMismatch`, `ResponseMismatch`) and the
      handshake's `sys.exit` (`Refused`), so that one `Result` carries them
      all through `:-`. */
  datatype Error =
    | Timeout                  // `rx`: the read returned no byte at all
    | Nak                      // `expectAck`: got 0x15
    | Enq                      // `expectAck`: got 0x05
    | NotAck(got: Byte)        // `expectAck`: got any other byte than 0x06
    | BadStart(got: Byte)      // `readTelegram`: the start marker is not 0x41
    | ShortRead                // `readTelegram`: fewer than length + 1 bytes came back
    | ChecksumMismatch         // `readTelegram`: the trailing checksum is wrong
    | PackRange                // `struct.pack`: a field does not fit its format
    | LengthMismatch           // `readAddr`: response is not 5 + cnt bytes long
    | ResponseMismatch         // `readAddr`: status is not 0x01 or the echo differs
    | Refused(got: Byte)       // handshake: first byte neither 0x05 nor 0x06, `sys.exit(1)`

  datatype Result<+T> = Ok(value: T) | Err(error: Error) {
    predicate IsFailure() { Err? }

    function PropagateFailure<U>(): Result<U>
      requires Err?
    {
      Err(error)
    }

    function Extract(): T
      requires Ok?
    {
      value
    }
  }

  /** `input` holds the bytes that are still to arrive, `written` every byte sent so far. */
  datatype Channel = Channel(input: seq<Byte>, written: seq<Byte>)

  /** Bytes obtained by a read, and the channel after it. */
  datatype Received = Received(bytes: seq<Byte>, ch: Channel)

  /** `tx`: an unbuffered write appends to the log and leaves the input alone. */
  function Tx(ch: Channel, bs: seq<Byte>): (r: Channel)
    ensures r.input == ch.input
    ensures |r.written| == |ch.written| + |bs|
    ensures r.written[..|ch.written|] == ch.written && r.written[|ch.written|..] == bs
  {
    ch.(written := ch.written + bs)
  }

  /** `ser.read(n)` with a timeout: up to `n` bytes, fewer only when no more arrive. */
  function Read(ch: Channel, n: nat): (r: Received)
    ensures |r.bytes| <= n
    ensures |r.bytes| < n ==> r.ch.input == []
    ensures ch.input == r.bytes + r.ch.input
    ensures r.ch.written == ch.written
  {
    var k := if n < |ch.input| then n else |ch.input|;
    Received(ch.input[..k], ch.(input := ch.input[k..]))
  }

  /** `rx`: a read that raises `Timeout` when it returns nothing. */
  function Rx(ch: Channel, n: nat): (r: Result<Received>)
    ensures r.Ok? <==> n > 0 && ch.input != []
    ensures r.Err? ==> r.error == Timeout
    ensures r.Ok? ==> 1 <= |r.value.bytes| <= n && r.value == Read(ch, n)
  {
    var got := Read(ch, n);
    if |got.bytes| == 0 then Err(Timeout) else Ok(got)
  }

  /** `reset_input_buffer`: drops the `stale` bytes that were already buffered
      when it ran; how many there were depends on timing, so it is a parameter. */
  function ResetInput(ch: Channel, stale: nat): (r: Channel)
    ensures r.written == ch.written
    ensures stale <= |ch.input| ==> r.input == ch.input[stale..]
    ensures stale > |ch.input| ==> r.input == []
  {
    Read(ch, stale).ch
  }
}
